=== FILE: README.md ===
# Munsell colour solid: colour conversion and orbit camera

This project models two pieces of the WebGL viewer.

- **The colour conversion.** `hsv2rgb` in `src/colorUtil.ts` turns a hue in degrees and a saturation and value in percent into three channels. It starts every channel at the gray base `v(1-s)`. A `switch` on the sector `floor(h/60)` adds the chroma `vs` to one channel and the secondary term `x = vs(1 - |(h/60) % 2 - 1|)` to another. Each channel is then scaled by 255 and rounded.
- **The orbit camera.** `src/index.ts` lines 11-48 hold the yaw `rx`, the pitch `ry` and the last pointer position. Pointer-down starts a drag. Each pointer move during a drag turns the angles by the pixel deltas, wraps the yaw, clamps the pitch and recomputes the eye position `calcEyePos`. Pointer-up ends the drag.

It has three modules:

- `RealMath` (`real_math.dfy`): the JavaScript number operations used: `Math.abs`, `Math.round` (half up) and the remainder `%`, which takes the sign of the dividend and is built on truncation toward zero (`Trunc`). `Math.floor` is Dafny's own `.Floor` on reals.
- `ColorUtil` (`color_util.dfy`): the conversion, in two parts:
  - `Unrounded` is the `switch` before rounding, and `Hsv2Rgb` is the whole function.
  - `Reference` is an independent formula with no sector switch, `v - vs·max(0, min(m, 4-m, 1))` with `m = (5 - 2k + h/60) mod 6` for channel `k`. The switch is proved equal to it on `[0, 360)`.
- `OrbitCamera` (`orbit_camera.dfy`): the camera state, the three event handlers as `Step`, and runs of events as `Run`.

JavaScript numbers are modelled as exact reals. `Math.PI`, `Math.sin` and `Math.cos` are a parameter `Trig`. Only `pi > 0` is assumed of it. The identity `sin² + cos² = 1` is assumed only by the two lemmas about the eye's distance.

Four behaviours of the code differ from what an HSV conversion and an orbit camera usually promise. The model follows the code:

- **Hue 360.** The usual six-sector convention reduces the sector modulo 6, so hue 360 is red again. `hsv2rgb` reduces nothing: hue 360 reaches the `default` branch and comes out gray. At full saturation and value it is black (`Hue360IsNotRed`, and `Hsv2Rgb`'s contract for every hue outside `[0, 360)`).
- **Yaw range.** A wrapped angle is usually kept in `(-π, π]`. The code keeps `-π` as it is (`MinusPiIsKept`). It also wraps only once per move, so a horizontal drag of more than 360 pixels can leave `[-π, π]` (`WrapYaw`, `LargeDragLeavesYawRange`).
- **Channel range.** The code does not clamp channels to `[0, 255]`. They lie in that range when saturation and value are in `[0, 100]` (`ChannelsAreBytes`).
- **Radius and zoom.** Orbit cameras often zoom with the wheel and clamp the radius. This code has a constant `cameraZ = 4` and no wheel handler.

## Model

| member | source | states |
|---|---|---|
| RealMath.Abs | src/colorUtil.ts:11 | `Math.abs` is non-negative and is the argument or its negation |
| RealMath.Round | src/colorUtil.ts:41-43 | `Math.round` gives the integer within half of its argument, halves going up |
| RealMath.RemTwo | src/colorUtil.ts:11 | `p % 2` lies in `[0, 2)` for a non-negative dividend and in `(-2, 0]` for a negative one, and differs from the dividend by a whole multiple of 2 |
| ColorUtil.Sector | src/colorUtil.ts:9-10 | `Math.floor(hPrime)` is the sixty-degree slice containing the hue, and it is one of the six `switch` cases exactly when the hue is in `[0, 360)` |
| ColorUtil.Tent | src/colorUtil.ts:11 | the factor `1 - abs(hPrime % 2 - 1)` never exceeds 1 and is non-negative for a non-negative hue; `TentInSector` pins its value in each sector |
| ColorUtil.TentInSector | src/colorUtil.ts:9-11 | within sector `floor(h/60)` the factor `1 - abs(hPrime % 2 - 1)` is the fraction of the sector covered (even sector) or still to go (odd sector), so it lies in `[0, 1]` |
| ColorUtil.Secondary | src/colorUtil.ts:11 | for a non-negative hue and chroma the secondary term `x` lies between 0 and the chroma `v·s` |
| ColorUtil.SwitchTable | src/colorUtil.ts:13-40 | in each of the six cases one channel gets the chroma, one the secondary term and one nothing, by the channel tables `FullChannel`, `EmptyChannel` and `PartialChannel`; the default leaves all three at the base |
| ColorUtil.Unrounded | src/colorUtil.ts:6-40 | before rounding, in every sector of `[0, 360)` one channel reaches the value `v`, one stays at the base `v(1-s)` and one gets the base plus `x`; outside `[0, 360)` all three are the base. `UnroundedMatchesReference` carries its full meaning |
| ColorUtil.ReferenceRoles | src/colorUtil.ts:6-37 | the switch-free formula gives the same three roles: the value, the base, and the base plus `x` |
| ColorUtil.UnroundedMatchesReference | src/colorUtil.ts:6-40 | for every hue in `[0, 360)` and every saturation and value, the channels before rounding equal the switch-free six-sector formula |
| ColorUtil.Hsv2Rgb | src/colorUtil.ts:1-45 | a hue below 0 or at or above 360 falls to the default branch, so every channel is the rounded gray base; `Hsv2RgbMatchesReference` covers `[0, 360)` |
| ColorUtil.Hsv2RgbMatchesReference | src/colorUtil.ts:1-45 | for every hue in `[0, 360)` the result is the switch-free six-sector formula rounded channel by channel |
| ColorUtil.GrayWhenUnsaturated | src/colorUtil.ts:6-43 | with saturation 0 all three channels equal `round(v/100·255)`, whatever the hue, the default branch included |
| ColorUtil.Primaries | src/colorUtil.ts:6-43 | at full saturation and value, hues 0, 120 and 240 give `(255,0,0)`, `(0,255,0)` and `(0,0,255)` |
| ColorUtil.Hue360IsNotRed | src/colorUtil.ts:9-13 | hue 360 at full saturation and value gives black, not the red of hue 0 |
| ColorUtil.ChannelsAreBytes | src/colorUtil.ts:6-43 | with saturation and value in `[0, 100]` every channel is an integer in `[0, 255]`, for every hue |
| ColorUtil.ExtremeChannels | src/colorUtil.ts:6-43 | for a hue in `[0, 360)` and non-negative saturation and value, the largest channel is `round(v·255)` and the smallest is `round(v(1-s)·255)` |
| OrbitCamera.EyePos | src/index.ts:16-22 | `calcEyePos`; `EyeInHalfPlane` and `EyeOnSphere` state where it lies |
| OrbitCamera.EyeInHalfPlane | src/index.ts:16-22 | `calcEyePos` lies in the vertical plane at yaw `rx`, at height `cameraZ·sin(ry)`; its component along the yaw direction `(sin rx, cos rx)` is `cameraZ·cos(ry)·(sin² rx + cos² rx)`, so for a pitch with non-negative cosine it is on the half of the plane the yaw faces |
| OrbitCamera.Initial | src/index.ts:11-23 | the start state: no drag, pointer at the origin, yaw `π/6`, pitch `π/4`, pitch within range and eye at `calcEyePos` |
| OrbitCamera.WrapYaw | src/index.ts:37-38 | below `-π` exactly one turn is added and above `π` exactly one turn is taken off; anything within `3π` of zero ends in `[-π, π]`, and `[-π, π]` (including `-π`) is left unchanged |
| OrbitCamera.ClampPitch | src/index.ts:39-40 | the pitch ends in `[-π/2, π/2]`, is unchanged when already there, and is otherwise the bound it overshot |
| OrbitCamera.TurnYaw | src/index.ts:35-38 | a drag of `dx` pixels turns the yaw by `π/180` per pixel: the result is the turned yaw `rx + (π/180)·dx` when that is in `[-π, π]`, that plus one whole turn when it is below `-π`, and that minus one whole turn when it is above `π`; from a yaw in `[-π, π]` a drag of at most 360 pixels ends in `[-π, π]`, and no drag keeps the yaw |
| OrbitCamera.TurnPitch | src/index.ts:36-40 | a drag of `dy` pixels turns the pitch by `π/180` per pixel: the result is `ry + (π/180)·dy` when that is in `[-π/2, π/2]`, and otherwise the bound `-π/2` or `π/2` it overshot; after any drag the pitch is in `[-π/2, π/2]`, and no drag keeps a pitch already in range |
| OrbitCamera.Move | src/index.ts:29-42 | a move records the new pointer and turns yaw and pitch by `π/180` per pixel of the pointer's displacement: each angle is the turned angle when that needs no wrap or clamp; a turned yaw below `-π` gains one whole turn and one above `π` loses one; a turned pitch beyond `±π/2` becomes the bound it overshot; the pitch stays in range, the eye stays at `calcEyePos`, the yaw stays in range when the horizontal delta is at most 360 pixels, and a zero move changes no angle |
| OrbitCamera.Step | src/index.ts:25-47 | pointer-down records the pointer and starts a drag; pointer-up ends it and changes nothing else; a move without a drag changes nothing; a move during a drag is the `pointermove` handler `Move`, which turns, wraps and clamps the angles; every event preserves the invariant |
| OrbitCamera.Run | src/index.ts:25-47 | any sequence of events preserves the invariant: pitch in `[-π/2, π/2]` and eye at `calcEyePos(rx, ry)` |
| OrbitCamera.ReachableInvariant | src/index.ts:11-47 | every state reachable from the start state satisfies the invariant |
| OrbitCamera.RunKeepsYawInRange | src/index.ts:35-38 | the yaw stays in `[-π, π]` over a run in which no move drags more than 360 pixels horizontally |
| OrbitCamera.LargeDragLeavesYawRange | src/index.ts:35-38 | a 720-pixel drag from yaw 0 ends at yaw `2π`, outside `[-π, π]`, because the wrap is applied only once |
| OrbitCamera.MinusPiIsKept | src/index.ts:37-38 | yaw `-π` is kept, not wrapped to `π` |
| OrbitCamera.EyeOnSphere | src/index.ts:16-22 | assuming `sin² + cos² = 1`, `calcEyePos` lies at distance `cameraZ` from the origin |
| OrbitCamera.ReachableEyeOnSphere | src/index.ts:11-47 | assuming `sin² + cos² = 1`, the eye of every reachable state lies at distance `cameraZ` from the origin |

## Left out

- Floating point: numbers are exact reals. IEEE rounding, `NaN` and infinities are not modelled. Neither is the `Float32Array` narrowing of the eye position at src/index.ts:17.
- `Math.PI`, `Math.sin` and `Math.cos` are uninterpreted. Only `pi > 0` is assumed, plus the Pythagorean identity where stated.
- DOM wiring: the canvas, and installing and removing `onpointermove` and `onpointerup`. These are modelled as the `dragging` flag. Pointer capture and events on other elements are not modelled.
- The rest of src/index.ts (lines 50 onward): the WebGL setup, buffers, matrices and render loop. These are I/O against the browser.
- src/glUtil.ts and src/@types/minmatrix.d.ts are not part of this model. The first holds WebGL calls; the second holds declarations for an external matrix library with no bodies.
- webpack.config.js: build configuration.
- Zoom and a clamped radius: the code has neither. `cameraZ` is the constant 4.

=== FILE: color_util.dfy ===
/** The six-sector HSV to RGB conversion `hsv2rgb` of src/colorUtil.ts.
    Hue is in degrees, saturation and value are percentages; the result is
    three channels rounded to integers after scaling by 255. */
module ColorUtil {
  import opened RealMath

  /** The array `[r, g, b]` the conversion returns. */
  datatype Rgb = Rgb(r: int, g: int, b: int)

  /** The three channels as fractions, before scaling and rounding. */
  datatype Channels = Channels(r: real, g: real, b: real)

  /** Channel `k` (0 red, 1 green, 2 blue), as `hsv2rgb` indexes `ret`. */
  function Channel(c: Channels, k: int): real
    requires 0 <= k < 3
  {
    if k == 0 then c.r else if k == 1 then c.g else c.b
  }

  function Max3(c: Rgb): int {
    var m := if c.r < c.g then c.g else c.r;
    if m < c.b then c.b else m
  }

  function Min3(c: Rgb): int {
    var m := if c.r < c.g then c.r else c.g;
    if m < c.b then m else c.b
  }

  /** The value `v` as a fraction: what the fully lit channel reaches. */
  function Full(v: real): real {
    v / 100.0
  }

  /** The gray base `v(1-s)` every channel starts from. */
  function Base(s: real, v: real): real {
    Full(v) * (1.0 - s / 100.0)
  }

  /** The chroma `v s` added to the dominant channel. */
  function Chroma(s: real, v: real): real {
    Full(v) * (s / 100.0)
  }

  /** The sector index `floor(h / 60)`: the sixty-degree slice the hue lies
      in. No reduction modulo 6 is applied, so the index is one of the six
      cases of the `switch` exactly when the hue is in `[0, 360)`. */
  function Sector(h: real): (i: int)
    ensures i as real * 60.0 <= h < i as real * 60.0 + 60.0
    ensures 0 <= i < 6 <==> 0.0 <= h < 360.0
  {
    (h / 60.0).Floor
  }

  /** The tent `1 - |(p % 2) - 1|`: rises from 0 to 1 over an even sector and
      falls back over the following odd one. It never exceeds 1 and, for a
      non-negative position, never drops below 0. */
  function Tent(p: real): (r: real)
    ensures r <= 1.0
    ensures p >= 0.0 ==> 0.0 <= r
  {
    1.0 - Abs(RemTwo(p) - 1.0)
  }

  /** The secondary term `x = v s (1 - |(h/60) % 2 - 1|)`: for a
      non-negative hue and chroma it lies between nothing and the full
      chroma. */
  function Secondary(h: real, s: real, v: real): (x: real)
    ensures 0.0 <= h && 0.0 <= Chroma(s, v) ==> 0.0 <= x <= Chroma(s, v)
  {
    var c := Chroma(s, v);
    var t := Tent(h / 60.0);
    assert 0.0 <= h ==> 0.0 <= t <= 1.0;
    MulBetween(c, t);
    c * t
  }

  /** The `switch` on the sector index: in each of its six cases one channel
      gets the chroma `vs`, another the secondary term `x`, and the third
      nothing on top of the gray `base`; any other index leaves all three at
      the base. */
  function SwitchTable(i: int, base: real, vs: real, x: real): (c: Channels)
    ensures 0 <= i < 6 ==>
      && Channel(c, FullChannel(i)) == base + vs
      && Channel(c, EmptyChannel(i)) == base
      && Channel(c, PartialChannel(i)) == base + x
    ensures !(0 <= i < 6) ==> c == Channels(base, base, base)
  {
    match i
    case 0 => Channels(base + vs, base + x, base)
    case 1 => Channels(base + x, base + vs, base)
    case 2 => Channels(base, base + vs, base + x)
    case 3 => Channels(base, base + x, base + vs)
    case 4 => Channels(base + x, base, base + vs)
    case 5 => Channels(base + vs, base, base + x)
    case _ => Channels(base, base, base)
  }

  /** The channels after the `switch` and before rounding. In every sector
      of `[0, 360)` the full channel reaches the value, the empty one stays at
      the gray base, and the partial one gets the base plus the secondary
      term; outside `[0, 360)` all three stay at the base. */
  function Unrounded(h: real, s: real, v: real): (c: Channels)
    ensures 0.0 <= h < 360.0 ==> var i := Sector(h);
      && 0 <= i < 6
      && Channel(c, FullChannel(i)) == Full(v)
      && Channel(c, EmptyChannel(i)) == Base(s, v)
      && Channel(c, PartialChannel(i)) == Base(s, v) + Secondary(h, s, v)
    ensures !(0.0 <= h < 360.0) ==> c == Channels(Base(s, v), Base(s, v), Base(s, v))
  {
    BaseAndChroma(s, v);
    SwitchTable(Sector(h), Base(s, v), Chroma(s, v), Secondary(h, s, v))
  }

  /** One channel fraction scaled by 255 and rounded half up. */
  function ToByte(f: real): int {
    Round(f * 255.0)
  }

  /** The `Math.round(ret[k] * 255)` of `hsv2rgb`, channel by channel. */
  function ToBytes(c: Channels): Rgb {
    Rgb(ToByte(c.r), ToByte(c.g), ToByte(c.b))
  }

  /** `hsv2rgb(h, s, v)`. A hue outside `[0, 360)` reaches the `default`
      branch and gives the rounded gray base, with no reduction of the hue
      modulo 360; on `[0, 360)` see `UnroundedMatchesReference`. */
  function Hsv2Rgb(h: real, s: real, v: real): (c: Rgb)
    ensures !(0.0 <= h < 360.0) ==> c == Gray(Base(s, v))
  {
    ToBytes(Unrounded(h, s, v))
  }

  /** The gray whose three channels are all the fraction `f`, rounded. */
  function Gray(f: real): Rgb {
    Rgb(ToByte(f), ToByte(f), ToByte(f))
  }

  lemma BaseAndChroma(s: real, v: real)
    ensures Base(s, v) + Chroma(s, v) == Full(v)
  {
  }

  // ---------------------------------------------------------------------
  // Sector structure

  /** The channel that receives the full chroma in sector `i`: red, green,
      green, blue, blue, red. */
  function FullChannel(i: int): int
    requires 0 <= i < 6
  {
    match i
    case 0 => 0
    case 1 => 1
    case 2 => 1
    case 3 => 2
    case 4 => 2
    case _ => 0
  }

  /** The channel that receives nothing in sector `i`: blue, blue, red, red,
      green, green. */
  function EmptyChannel(i: int): int
    requires 0 <= i < 6
  {
    match i
    case 0 => 2
    case 1 => 2
    case 2 => 0
    case 3 => 0
    case 4 => 1
    case _ => 1
  }

  /** The remaining channel, which receives the secondary term. */
  function PartialChannel(i: int): (k: int)
    requires 0 <= i < 6
    ensures 0 <= k < 3 && 0 <= FullChannel(i) < 3 && 0 <= EmptyChannel(i) < 3
    ensures FullChannel(i) != EmptyChannel(i) && k != FullChannel(i) && k != EmptyChannel(i)
  {
    3 - FullChannel(i) - EmptyChannel(i)
  }

  /** Within sector `i = floor(p)` the tent is the fraction `f` of the sector
      already covered when `i` is even and the fraction still to go when `i`
      is odd; so it lies in `[0, 1]`. */
  lemma TentInSector(p: real)
    requires p >= 0.0
    ensures var i := p.Floor; var f := p - i as real;
      && 0.0 <= f < 1.0
      && Tent(p) == Rise(i, f)
      && 0.0 <= Tent(p) <= 1.0
  {
    var i := p.Floor;
    var m := RemTwo(p);
    RemTwoOfNonNegative(p);
    var q := (p / 2.0).Floor;
    assert i == 2 * q || i == 2 * q + 1;
    if i == 2 * q {
      assert m == p - i as real;
    } else {
      assert m == p - i as real + 1.0;
    }
  }

  // ---------------------------------------------------------------------
  // The conversion against the alternative formula

  /** Euclidean remainder modulo 6 on reals. */
  function Mod6(k: real): (r: real)
    ensures 0.0 <= r < 6.0
  {
    k - 6.0 * (k / 6.0).Floor as real
  }

  function Min(a: real, b: real): real {
    if a < b then a else b
  }

  function Max(a: real, b: real): real {
    if a < b then b else a
  }

  /** The trapezoid `max(0, min(m, 4 - m, 1))` over one turn `[0, 6)`. */
  function Trapezoid(m: real): real {
    Max(0.0, Min(m, Min(4.0 - m, 1.0)))
  }

  /** The offset `n = 5 - 2k` of channel `k`: 5 for red, 3 for green, 1 for blue. */
  function Offset(k: int): real {
    (5 - 2 * k) as real
  }

  /** The weight the alternative formula gives channel `k` at hue position
      `p = h / 60`: the trapezoid at `(n + p) mod 6`. */
  function Weight(k: int, p: real): real {
    Trapezoid(Mod6(Offset(k) + p))
  }

  /** The alternative HSV to RGB formula `v - v s Weight(k, h / 60)`, which
      has no sector switch. */
  function ReferenceChannel(k: int, h: real, s: real, v: real): real {
    Mix(Full(v), Chroma(s, v), Weight(k, h / 60.0))
  }

  /** The value `full` less `w` parts of the chroma `c`. */
  function Mix(full: real, c: real, w: real): real {
    full - c * w
  }

  function Reference(h: real, s: real, v: real): Channels {
    Channels(ReferenceChannel(0, h, s, v), ReferenceChannel(1, h, s, v), ReferenceChannel(2, h, s, v))
  }

  /** The weight of a channel once the whole turns are known. */
  lemma WeightShift(k: int, p: real, j: int)
    requires 6.0 * j as real <= Offset(k) + p < 6.0 * j as real + 6.0
    ensures Weight(k, p) == Trapezoid(Offset(k) + p - 6.0 * j as real)
  {
    var m := Offset(k) + p;
    assert (m / 6.0).Floor == j;
  }

  /** How far the hue has risen through the tent within sector `i`: the
      fraction `f` covered in an even sector, the fraction left in an odd one. */
  function Rise(i: int, f: real): real {
    if i % 2 == 0 then f else 1.0 - f
  }

  /** The weight that channel `k` has in sector `i`, a fraction `f` of the
      way through it, according to its role: 0 when it is the full channel,
      1 when it is the empty one, and `1 - Rise(i, f)` when it receives the
      secondary term. */
  function RoleWeight(k: int, i: int, f: real): real
    requires 0 <= i < 6
  {
    if k == FullChannel(i) then 0.0
    else if k == EmptyChannel(i) then 1.0
    else 1.0 - Rise(i, f)
  }

  /** The weight of one channel according to its role in the sector. */
  lemma ChannelWeight(k: int, p: real)
    requires 0 <= k < 3
    requires 0.0 <= p < 6.0
    ensures 0 <= p.Floor < 6
    ensures Weight(k, p) == RoleWeight(k, p.Floor, p - p.Floor as real)
  {
    // (n + p) mod 6 needs one turn taken off once n + p reaches 6.
    var j := if Offset(k) + p < 6.0 then 0 else 1;
    WeightShift(k, p, j);
  }

  /** In sector `i` the alternative formula weighs the full channel 0, the
      empty channel 1 and the partial channel `1 - Tent(p)`. */
  lemma SectorWeights(p: real)
    requires 0.0 <= p < 6.0
    ensures var i := p.Floor;
      && 0 <= i < 6
      && Weight(FullChannel(i), p) == 0.0
      && Weight(EmptyChannel(i), p) == 1.0
      && Weight(PartialChannel(i), p) == 1.0 - Tent(p)
  {
    var i := p.Floor;
    var f := p - i as real;
    assert 0 <= i < 6;
    ChannelWeight(FullChannel(i), p);
    ChannelWeight(EmptyChannel(i), p);
    ChannelWeight(PartialChannel(i), p);
    TentInSector(p);
    assert Tent(p) == Rise(i, f);
  }

  /** Weight 0 leaves the full value. */
  lemma ReferenceFull(k: int, h: real, s: real, v: real)
    requires Weight(k, h / 60.0) == 0.0
    ensures ReferenceChannel(k, h, s, v) == Full(v)
  {
  }

  /** Weight 1 leaves the gray base. */
  lemma ReferenceEmpty(k: int, h: real, s: real, v: real)
    requires Weight(k, h / 60.0) == 1.0
    ensures ReferenceChannel(k, h, s, v) == Base(s, v)
  {
    BaseAndChroma(s, v);
  }

  /** Weight `1 - t` leaves the gray base plus the secondary term. */
  lemma ReferencePartial(k: int, h: real, s: real, v: real)
    requires Weight(k, h / 60.0) == 1.0 - Tent(h / 60.0)
    ensures ReferenceChannel(k, h, s, v) == Base(s, v) + Secondary(h, s, v)
  {
    BaseAndChroma(s, v);
    MixPartial(Full(v), Base(s, v), Chroma(s, v), Tent(h / 60.0));
  }

  lemma MixPartial(full: real, base: real, c: real, t: real)
    requires base + c == full
    ensures Mix(full, c, 1.0 - t) == base + c * t
  {
  }

  /** The alternative formula, read by roles: over `[0, 360)` it gives the
      full channel the value, the empty channel the gray base and the partial
      channel the base plus the secondary term, as the switch does. */
  lemma ReferenceRoles(h: real, s: real, v: real)
    requires 0.0 <= h < 360.0
    ensures var i := Sector(h);
      && 0 <= i < 6
      && ReferenceChannel(FullChannel(i), h, s, v) == Full(v)
      && ReferenceChannel(EmptyChannel(i), h, s, v) == Base(s, v)
      && ReferenceChannel(PartialChannel(i), h, s, v) == Base(s, v) + Secondary(h, s, v)
  {
    var i := Sector(h);
    SectorWeights(h / 60.0);
    ReferenceFull(FullChannel(i), h, s, v);
    ReferenceEmpty(EmptyChannel(i), h, s, v);
    ReferencePartial(PartialChannel(i), h, s, v);
  }

  /** Two channel triples that agree channel by channel are equal. */
  lemma ChannelsEqual(a: Channels, b: Channels, i: int)
    requires 0 <= i < 6
    requires Channel(a, FullChannel(i)) == Channel(b, FullChannel(i))
    requires Channel(a, EmptyChannel(i)) == Channel(b, EmptyChannel(i))
    requires Channel(a, PartialChannel(i)) == Channel(b, PartialChannel(i))
    ensures a == b
  {
  }

  /** For every hue in `[0, 360)` and every saturation and value, the
      `switch` of `hsv2rgb` computes exactly the alternative formula. */
  lemma UnroundedMatchesReference(h: real, s: real, v: real)
    requires 0.0 <= h < 360.0
    ensures Unrounded(h, s, v) == Reference(h, s, v)
  {
    var i := Sector(h);
    var r := Reference(h, s, v);
    ReferenceRoles(h, s, v);
    assert forall k | 0 <= k < 3 :: Channel(r, k) == ReferenceChannel(k, h, s, v);
    ChannelsEqual(Unrounded(h, s, v), r, i);
  }

  // ---------------------------------------------------------------------
  // Properties of the rounded result

  /** On `[0, 360)` the conversion is the rounded switch-free formula. */
  lemma Hsv2RgbMatchesReference(h: real, s: real, v: real)
    requires 0.0 <= h < 360.0
    ensures Hsv2Rgb(h, s, v) == ToBytes(Reference(h, s, v))
  {
    UnroundedMatchesReference(h, s, v);
  }

  /** With no saturation every channel is the value, whatever the hue, the
      default branch included. */
  lemma GrayWhenUnsaturated(h: real, v: real)
    ensures var g := Round(v / 100.0 * 255.0);
      Hsv2Rgb(h, 0.0, v) == Rgb(g, g, g)
  {
    assert Secondary(h, 0.0, v) == 0.0;
  }

  /** Full saturation and value at hues 0, 120 and 240 give the primaries. */
  lemma Primaries()
    ensures Hsv2Rgb(0.0, 100.0, 100.0) == Rgb(255, 0, 0)
    ensures Hsv2Rgb(120.0, 100.0, 100.0) == Rgb(0, 255, 0)
    ensures Hsv2Rgb(240.0, 100.0, 100.0) == Rgb(0, 0, 255)
  {
    Red();
    Green();
    Blue();
  }

  lemma Red()
    ensures Hsv2Rgb(0.0, 100.0, 100.0) == Rgb(255, 0, 0)
  {
    var x := Secondary(0.0, 100.0, 100.0);
    assert x == 0.0 by {
      assert Trunc(0.0) == 0 && RemTwo(0.0) == 0.0 && Tent(0.0) == 0.0;
    }
    assert Sector(0.0) == 0;
    assert Unrounded(0.0, 100.0, 100.0) == SwitchTable(0, 0.0, 1.0, x);
    assert ToByte(1.0) == 255 && ToByte(0.0) == 0;
  }

  lemma Green()
    ensures Hsv2Rgb(120.0, 100.0, 100.0) == Rgb(0, 255, 0)
  {
    var x := Secondary(120.0, 100.0, 100.0);
    assert x == 0.0 by {
      assert Trunc(2.0 / 2.0) == 1 && RemTwo(2.0) == 0.0 && Tent(2.0) == 0.0;
    }
    assert Sector(120.0) == 2;
    assert Unrounded(120.0, 100.0, 100.0) == SwitchTable(2, 0.0, 1.0, x);
    assert ToByte(1.0) == 255 && ToByte(0.0) == 0;
  }

  lemma Blue()
    ensures Hsv2Rgb(240.0, 100.0, 100.0) == Rgb(0, 0, 255)
  {
    var x := Secondary(240.0, 100.0, 100.0);
    assert x == 0.0 by {
      assert Trunc(4.0 / 2.0) == 2 && RemTwo(4.0) == 0.0 && Tent(4.0) == 0.0;
    }
    assert Sector(240.0) == 4;
    assert Unrounded(240.0, 100.0, 100.0) == SwitchTable(4, 0.0, 1.0, x);
    assert ToByte(1.0) == 255 && ToByte(0.0) == 0;
  }

  /** Hue 360 does not wrap to red: fully saturated it comes out black. */
  lemma Hue360IsNotRed()
    ensures Hsv2Rgb(360.0, 100.0, 100.0) == Rgb(0, 0, 0)
    ensures Hsv2Rgb(360.0, 100.0, 100.0) != Hsv2Rgb(0.0, 100.0, 100.0)
  {
    Primaries();
    assert Base(100.0, 100.0) == 0.0 && ToByte(0.0) == 0;
  }

  lemma ToByteInRange(f: real)
    requires 0.0 <= f <= 1.0
    ensures 0 <= ToByte(f) <= 255
  {
    RoundMonotone(0.0, f * 255.0);
    RoundMonotone(f * 255.0, 255.0);
    RoundOfInteger(0);
    RoundOfInteger(255);
  }

  /** For saturation and value within `[0, 100]` every channel is an integer in
      `[0, 255]`, for every hue. */
  lemma ChannelsAreBytes(h: real, s: real, v: real)
    requires 0.0 <= s <= 100.0 && 0.0 <= v <= 100.0
    ensures var c := Hsv2Rgb(h, s, v);
      0 <= c.r <= 255 && 0 <= c.g <= 255 && 0 <= c.b <= 255
  {
    var full := Full(v);
    var vs := Chroma(s, v);
    ChromaBetween(s, v);
    BaseAndChroma(s, v);
    var i := Sector(h);
    SwitchTableBounds(i, Base(s, v), vs, Secondary(h, s, v));
    var u := Unrounded(h, s, v);
    ToByteInRange(u.r);
    ToByteInRange(u.g);
    ToByteInRange(u.b);
  }

  /** For saturation and value within `[0, 100]` the chroma lies between
      nothing and the value. */
  lemma ChromaBetween(s: real, v: real)
    requires 0.0 <= s <= 100.0 && 0.0 <= v <= 100.0
    ensures 0.0 <= Chroma(s, v) <= Full(v)
  {
    var full, k := Full(v), s / 100.0;
    assert 0.0 <= full && 0.0 <= k <= 1.0;
    MulBetween(full, k);
    assert Chroma(s, v) == full * k;
  }

  /** With a gray base and chroma that sum to at most 1, and a secondary term
      between nothing and the chroma, the switch keeps every channel in `[0, 1]`. */
  lemma SwitchTableBounds(i: int, base: real, vs: real, x: real)
    requires 0.0 <= base && 0.0 <= vs && base + vs <= 1.0
    requires 0 <= i < 6 ==> 0.0 <= x <= vs
    ensures var c := SwitchTable(i, base, vs, x);
      0.0 <= c.r <= 1.0 && 0.0 <= c.g <= 1.0 && 0.0 <= c.b <= 1.0
  {
  }

  /** For a hue in `[0, 360)` and non-negative saturation and value, the
      largest channel is the value and the smallest is the gray base. */
  lemma ExtremeChannels(h: real, s: real, v: real)
    requires 0.0 <= h < 360.0
    requires 0.0 <= s && 0.0 <= v
    ensures Max3(Hsv2Rgb(h, s, v)) == ToByte(Full(v))
    ensures Min3(Hsv2Rgb(h, s, v)) == ToByte(Base(s, v))
  {
    var base := Base(s, v);
    var vs := Chroma(s, v);
    MulNonNegative(Full(v), s / 100.0);
    BaseAndChroma(s, v);
    RolesOrder(Unrounded(h, s, v), Sector(h), base, base + Secondary(h, s, v), Full(v));
  }

  /** When the empty channel holds `lo`, the partial one `mid` and the full
      one `hi`, with `lo <= mid <= hi`, rounding keeps `hi` the largest and
      `lo` the smallest. */
  lemma RolesOrder(u: Channels, i: int, lo: real, mid: real, hi: real)
    requires 0 <= i < 6
    requires lo <= mid <= hi
    requires Channel(u, EmptyChannel(i)) == lo
    requires Channel(u, PartialChannel(i)) == mid
    requires Channel(u, FullChannel(i)) == hi
    ensures Max3(ToBytes(u)) == ToByte(hi)
    ensures Min3(ToBytes(u)) == ToByte(lo)
  {
    RoundMonotone(lo * 255.0, mid * 255.0);
    RoundMonotone(mid * 255.0, hi * 255.0);
  }
}

=== FILE: orbit_camera.dfy ===
/** The orbit camera of src/index.ts: the yaw `rx` and pitch `ry` that a
    pointer drag turns, the last pointer position the next delta is measured
    from, and the eye position recomputed from the two angles on a sphere of
    radius `cameraZ` around the origin. */
module OrbitCamera {
  import opened RealMath

  /** What the camera code takes from `Math`: `Math.PI`, `Math.sin` and
      `Math.cos`. They are left uninterpreted; only `pi > 0` is assumed
      throughout, and `sin^2 + cos^2 = 1` only where a lemma says so. */
  datatype Trig = Trig(pi: real, sin: real -> real, cos: real -> real)

  predicate ValidTrig(t: Trig) {
    t.pi > 0.0
  }

  /** The Pythagorean identity for the given sine and cosine. */
  ghost predicate Pythagorean(t: Trig) {
    forall a: real :: t.sin(a) * t.sin(a) + t.cos(a) * t.cos(a) == 1.0
  }

  /** `cameraZ`: the distance of the eye from the origin. */
  const CameraZ: real := 4.0

  /** The conversion factor `Math.PI / 180` from pixels of drag to radians. */
  function RadiansPerPixel(t: Trig): real {
    t.pi / 180.0
  }

  /** The angle `a` after a drag of `d` pixels: `a + (Math.PI / 180) * d`,
      one degree per pixel. */
  function Turned(t: Trig, a: real, d: real): real {
    a + RadiansPerPixel(t) * d
  }

  datatype Point = Point(x: real, y: real)

  datatype Vec3 = Vec3(x: real, y: real, z: real)

  function NormSquared(p: Vec3): real {
    p.x * p.x + p.y * p.y + p.z * p.z
  }

  /** The camera state: whether a drag is in progress (the move and up
      handlers are installed), the last pointer position, yaw, pitch and the
      eye position. */
  datatype Camera = Camera(dragging: bool, pointerPos: Point, rx: real, ry: real, eyePos: Vec3)

  datatype Event =
    | PointerDown(client: Point)
    | PointerMove(client: Point)
    | PointerUp

  /** `calcEyePos`: the point at yaw `rx` and pitch `ry` on the sphere of
      radius `cameraZ`. `EyeInHalfPlane` and `EyeOnSphere` say where it
      lies. */
  function EyePos(t: Trig, rx: real, ry: real): Vec3 {
    Vec3(CameraZ * t.sin(rx) * t.cos(ry),
         CameraZ * t.sin(ry),
         CameraZ * t.cos(rx) * t.cos(ry))
  }

  /** The eye lies in the vertical plane turned `rx` from the z axis, at
      height `cameraZ sin(ry)`. Along the direction `(sin rx, cos rx)` of
      that plane its horizontal component is `cameraZ cos(ry)` times the
      squared length of the direction, so for a pitch whose cosine is
      non-negative it is on the half of the plane the yaw points to. */
  lemma EyeInHalfPlane(t: Trig, rx: real, ry: real)
    ensures var e := EyePos(t, rx, ry);
      && e.x * t.cos(rx) == e.z * t.sin(rx)
      && e.x * t.sin(rx) + e.z * t.cos(rx)
         == CameraZ * t.cos(ry) * (t.sin(rx) * t.sin(rx) + t.cos(rx) * t.cos(rx))
      && e.y == CameraZ * t.sin(ry)
      && (t.cos(ry) >= 0.0 ==> e.x * t.sin(rx) + e.z * t.cos(rx) >= 0.0)
  {
    var s, c, q := t.sin(rx), t.cos(rx), t.cos(ry);
    assert (CameraZ * s * q) * c == (CameraZ * c * q) * s;
    assert (CameraZ * s * q) * s + (CameraZ * c * q) * c == CameraZ * q * (s * s + c * c);
    if q >= 0.0 {
      MulNonNegative(CameraZ * q, s * s + c * c);
    }
  }

  predicate PitchInRange(t: Trig, c: Camera) {
    -t.pi / 2.0 <= c.ry <= t.pi / 2.0
  }

  predicate YawInRange(t: Trig, c: Camera) {
    -t.pi <= c.rx <= t.pi
  }

  /** What every reachable state satisfies: the pitch is clamped and the eye
      position is the one the angles determine. */
  predicate Invariant(t: Trig, c: Camera) {
    PitchInRange(t, c) && c.eyePos == EyePos(t, c.rx, c.ry)
  }

  /** The state before any event: not dragging, pointer at the origin, yaw 30
      degrees and pitch 45 degrees. */
  function Initial(t: Trig): (c: Camera)
    requires ValidTrig(t)
    ensures !c.dragging
    ensures c.pointerPos == Point(0.0, 0.0)
    ensures 6.0 * c.rx == t.pi && 4.0 * c.ry == t.pi
    ensures Invariant(t, c) && YawInRange(t, c)
  {
    var rx := 30.0 / 180.0 * t.pi;
    var ry := 45.0 / 180.0 * t.pi;
    Camera(false, Point(0.0, 0.0), rx, ry, EyePos(t, rx, ry))
  }

  /** The yaw wrap: one turn added below `-pi`, then one turn taken off above
      `pi`. A single wrap brings anything within three half-turns of zero back
      into `[-pi, pi]`, keeps `-pi` itself, and leaves `[-pi, pi]` alone. */
  function WrapYaw(t: Trig, a: real): (r: real)
    requires ValidTrig(t)
    ensures r == a || r == a + 2.0 * t.pi || r == a - 2.0 * t.pi
    ensures a < -t.pi ==> r == a + 2.0 * t.pi
    ensures a > t.pi ==> r == a - 2.0 * t.pi
    ensures -3.0 * t.pi <= a <= 3.0 * t.pi ==> -t.pi <= r <= t.pi
    ensures -t.pi <= a <= t.pi ==> r == a
  {
    var a1 := if a < -t.pi then a + t.pi * 2.0 else a;
    if a1 > t.pi then a1 - t.pi * 2.0 else a1
  }

  /** The pitch clamp to `[-pi/2, pi/2]`. */
  function ClampPitch(t: Trig, a: real): (r: real)
    requires ValidTrig(t)
    ensures -t.pi / 2.0 <= r <= t.pi / 2.0
    ensures -t.pi / 2.0 <= a <= t.pi / 2.0 ==> r == a
    ensures r != a ==> (a < -t.pi / 2.0 && r == -t.pi / 2.0) || (a > t.pi / 2.0 && r == t.pi / 2.0)
  {
    var a1 := if a < -t.pi / 2.0 then -t.pi / 2.0 else a;
    if a1 > t.pi / 2.0 then t.pi / 2.0 else a1
  }

  /** The yaw after a horizontal drag of `dx` pixels: turned by `pi / 180`
      per pixel, then wrapped once, so it differs from the turned yaw by at
      most one whole turn and equals it when that is already in `[-pi, pi]`.
      A drag of at most 360 pixels keeps a yaw in `[-pi, pi]` there, and no
      drag keeps it as it is. */
  function TurnYaw(t: Trig, a: real, dx: real): (r: real)
    requires ValidTrig(t)
    ensures var d := Turned(t, a, dx);
      r == d || r == d + 2.0 * t.pi || r == d - 2.0 * t.pi
    ensures -t.pi <= Turned(t, a, dx) <= t.pi ==> r == Turned(t, a, dx)
    ensures Turned(t, a, dx) < -t.pi ==> r == Turned(t, a, dx) + 2.0 * t.pi
    ensures Turned(t, a, dx) > t.pi ==> r == Turned(t, a, dx) - 2.0 * t.pi
    ensures -t.pi <= a <= t.pi && -360.0 <= dx <= 360.0 ==> -t.pi <= r <= t.pi
    ensures -t.pi <= a <= t.pi && dx == 0.0 ==> r == a
  {
    TurnBound(t, a, dx);
    NoTurn(t, dx);
    WrapYaw(t, Turned(t, a, dx))
  }

  /** The pitch after a vertical drag of `dy` pixels: turned by `pi / 180`
      per pixel, then clamped, so it is the turned pitch whenever that lies
      in `[-pi/2, pi/2]`. No drag keeps a pitch in range as it is. */
  function TurnPitch(t: Trig, b: real, dy: real): (r: real)
    requires ValidTrig(t)
    ensures -t.pi / 2.0 <= r <= t.pi / 2.0
    ensures -t.pi / 2.0 <= Turned(t, b, dy) <= t.pi / 2.0 ==> r == Turned(t, b, dy)
    ensures Turned(t, b, dy) < -t.pi / 2.0 ==> r == -t.pi / 2.0
    ensures Turned(t, b, dy) > t.pi / 2.0 ==> r == t.pi / 2.0
    ensures -t.pi / 2.0 <= b <= t.pi / 2.0 && dy == 0.0 ==> r == b
  {
    NoTurn(t, dy);
    ClampPitch(t, Turned(t, b, dy))
  }

  /** The `pointermove` handler: the pixel deltas from the last pointer
      position turn yaw and pitch by `pi / 180` per pixel, yaw is wrapped
      once, pitch is clamped, and the eye position follows. */
  function Move(t: Trig, c: Camera, p: Point): (r: Camera)
    requires ValidTrig(t)
    ensures r.dragging == c.dragging
    ensures r.pointerPos == p
    ensures Invariant(t, r)
    ensures YawInRange(t, c) && -360.0 <= p.x - c.pointerPos.x <= 360.0 ==> YawInRange(t, r)
    ensures p == c.pointerPos && YawInRange(t, c) && PitchInRange(t, c) ==> r.rx == c.rx && r.ry == c.ry
    ensures var yaw := Turned(t, c.rx, p.x - c.pointerPos.x);
      r.rx == yaw || r.rx == yaw + 2.0 * t.pi || r.rx == yaw - 2.0 * t.pi
    ensures var yaw := Turned(t, c.rx, p.x - c.pointerPos.x);
      && (-t.pi <= yaw <= t.pi ==> r.rx == yaw)
      && (yaw < -t.pi ==> r.rx == yaw + 2.0 * t.pi)
      && (yaw > t.pi ==> r.rx == yaw - 2.0 * t.pi)
    ensures var pitch := Turned(t, c.ry, p.y - c.pointerPos.y);
      && (-t.pi / 2.0 <= pitch <= t.pi / 2.0 ==> r.ry == pitch)
      && (pitch < -t.pi / 2.0 ==> r.ry == -t.pi / 2.0)
      && (pitch > t.pi / 2.0 ==> r.ry == t.pi / 2.0)
  {
    var rx := TurnYaw(t, c.rx, p.x - c.pointerPos.x);
    var ry := TurnPitch(t, c.ry, p.y - c.pointerPos.y);
    Camera(c.dragging, p, rx, ry, EyePos(t, rx, ry))
  }

  /** A drag of at most 360 pixels turns by at most one full turn, so from a
      yaw in `[-pi, pi]` the single wrap brings it back into range. */
  lemma TurnBound(t: Trig, a: real, dx: real)
    requires ValidTrig(t)
    ensures -t.pi <= a <= t.pi && -360.0 <= dx <= 360.0 ==>
      -t.pi <= WrapYaw(t, Turned(t, a, dx)) <= t.pi
  {
    var k := RadiansPerPixel(t);
    if -t.pi <= a <= t.pi && -360.0 <= dx <= 360.0 {
      MulNonNegative(k, 360.0 - dx);
      MulNonNegative(k, 360.0 + dx);
      assert k * 360.0 == 2.0 * t.pi;
      assert k * (360.0 - dx) == k * 360.0 - k * dx;
      assert k * (360.0 + dx) == k * 360.0 + k * dx;
      assert -2.0 * t.pi <= k * dx <= 2.0 * t.pi;
      var d := Turned(t, a, dx);
      assert d == a + k * dx;
      assert -3.0 * t.pi <= d <= 3.0 * t.pi;
      var r := WrapYaw(t, d);
    }
  }

  /** No drag, no turn. */
  lemma NoTurn(t: Trig, d: real)
    ensures d == 0.0 ==> RadiansPerPixel(t) * d == 0.0
  {
  }

  /** One event. Pointer-down records the pointer and starts a drag (the move
      handler is installed); pointer-up ends it (both handlers are removed);
      a move is handled only during a drag and is ignored otherwise. */
  function Step(t: Trig, c: Camera, e: Event): (r: Camera)
    requires ValidTrig(t)
    ensures e.PointerDown? ==> r == c.(dragging := true, pointerPos := e.client)
    ensures e.PointerUp? ==> r == c.(dragging := false)
    ensures e.PointerMove? && !c.dragging ==> r == c
    ensures e.PointerMove? && c.dragging ==> r.dragging && r.pointerPos == e.client
    ensures e.PointerMove? && c.dragging ==> r == Move(t, c, e.client)
    ensures Invariant(t, c) ==> Invariant(t, r)
  {
    match e
    case PointerDown(p) => c.(dragging := true, pointerPos := p)
    case PointerMove(p) => if c.dragging then Move(t, c, p) else c
    case PointerUp => c.(dragging := false)
  }

  /** A sequence of events handled one after the other. Whatever the events,
      the invariant survives them. */
  function Run(t: Trig, c: Camera, es: seq<Event>): (r: Camera)
    requires ValidTrig(t)
    ensures Invariant(t, c) ==> Invariant(t, r)
    decreases |es|
  {
    if |es| == 0 then c else Run(t, Step(t, c, es[0]), es[1..])
  }

  /** Every state reached from the initial one by any events keeps the pitch
      in `[-pi/2, pi/2]` and the eye at `calcEyePos(rx, ry)`. */
  lemma ReachableInvariant(t: Trig, es: seq<Event>)
    requires ValidTrig(t)
    ensures Invariant(t, Run(t, Initial(t), es))
  {
  }

  /** The moves of `es`, taken from `c`, each shift the pointer by at most 360
      pixels horizontally. */
  predicate SmallYawSteps(t: Trig, c: Camera, es: seq<Event>)
    requires ValidTrig(t)
    decreases |es|
  {
    |es| == 0 ||
    ((es[0].PointerMove? && c.dragging ==> -360.0 <= es[0].client.x - c.pointerPos.x <= 360.0)
     && SmallYawSteps(t, Step(t, c, es[0]), es[1..]))
  }

  /** The yaw stays in `[-pi, pi]` along a run only as long as no single move
      drags more than 360 pixels horizontally. */
  lemma {:induction false} RunKeepsYawInRange(t: Trig, c: Camera, es: seq<Event>)
    requires ValidTrig(t)
    requires YawInRange(t, c)
    requires SmallYawSteps(t, c, es)
    ensures YawInRange(t, Run(t, c, es))
    decreases |es|
  {
    if |es| > 0 {
      RunKeepsYawInRange(t, Step(t, c, es[0]), es[1..]);
    }
  }

  /** A move of 720 pixels from yaw 0 ends at yaw `2 pi`: the single wrap does
      not bring larger drags back into `[-pi, pi]`. */
  lemma LargeDragLeavesYawRange(t: Trig)
    requires ValidTrig(t)
    ensures var c := Camera(true, Point(0.0, 0.0), 0.0, 0.0, EyePos(t, 0.0, 0.0));
      var r := Move(t, c, Point(720.0, 0.0));
      r.rx == 2.0 * t.pi && !YawInRange(t, r)
  {
  }

  /** Yaw `-pi` is kept as it is, not wrapped to `pi`. */
  lemma MinusPiIsKept(t: Trig, c: Camera)
    requires ValidTrig(t)
    requires c.rx == -t.pi && PitchInRange(t, c)
    ensures Move(t, c, c.pointerPos).rx == -t.pi
  {
  }

  /** The eye is at distance `cameraZ` from the origin, given the Pythagorean
      identity. */
  lemma EyeOnSphere(t: Trig, rx: real, ry: real)
    requires Pythagorean(t)
    ensures NormSquared(EyePos(t, rx, ry)) == CameraZ * CameraZ
  {
    SphereAlgebra(t.sin(rx), t.cos(rx), t.sin(ry), t.cos(ry));
  }

  lemma SphereAlgebra(sx: real, cx: real, sy: real, cy: real)
    requires sx * sx + cx * cx == 1.0
    requires sy * sy + cy * cy == 1.0
    ensures var e := Vec3(CameraZ * sx * cy, CameraZ * sy, CameraZ * cx * cy);
      NormSquared(e) == CameraZ * CameraZ
  {
    var e := Vec3(CameraZ * sx * cy, CameraZ * sy, CameraZ * cx * cy);
    assert e.x * e.x == 16.0 * (sx * sx) * (cy * cy);
    assert e.z * e.z == 16.0 * (cx * cx) * (cy * cy);
    assert e.x * e.x + e.z * e.z == 16.0 * (cy * cy) * (sx * sx + cx * cx);
  }

  /** Every reachable state has its eye at distance `cameraZ` from the origin,
      given the Pythagorean identity. */
  lemma ReachableEyeOnSphere(t: Trig, es: seq<Event>)
    requires ValidTrig(t) && Pythagorean(t)
    ensures NormSquared(Run(t, Initial(t), es).eyePos) == CameraZ * CameraZ
  {
    var c := Run(t, Initial(t), es);
    ReachableInvariant(t, es);
    EyeOnSphere(t, c.rx, c.ry);
  }
}

=== FILE: real_math.dfy ===
/** Real-number helpers standing in for the JavaScript number operations the
    colour conversion uses: `Math.abs`, `Math.round` and the remainder
    operator `%` (with the truncation it rests on). `Math.floor` is Dafny's
    own `.Floor`. JavaScript numbers are modelled as exact reals. */
module RealMath {

  /** `Math.abs`. */
  function Abs(x: real): (r: real)
    ensures r >= 0.0
    ensures r == x || r == -x
  {
    if x < 0.0 then -x else x
  }

  /** Truncation toward zero, the quotient the JavaScript `%` is built on. */
  function Trunc(x: real): (n: int)
    ensures x >= 0.0 ==> 0.0 <= n as real <= x < n as real + 1.0
    ensures x < 0.0 ==> n as real - 1.0 < x <= n as real <= 0.0
  {
    if x >= 0.0 then x.Floor else -((-x).Floor)
  }

  /** `Math.round`: the nearest integer, halves rounded up (toward +infinity),
      so `Round(2.5) == 3` and `Round(-2.5) == -2`. */
  function Round(x: real): (n: int)
    ensures x - 0.5 < n as real <= x + 0.5
  {
    (x + 0.5).Floor
  }

  /** The JavaScript remainder `a % 2`: the result takes the sign of the
      dividend, unlike Dafny's Euclidean `%`. */
  function RemTwo(a: real): (r: real)
    ensures a >= 0.0 ==> 0.0 <= r < 2.0
    ensures a < 0.0 ==> -2.0 < r <= 0.0
    ensures ((a - r) / 2.0).Floor as real == (a - r) / 2.0
  {
    a - 2.0 * Trunc(a / 2.0) as real
  }

  /** On a non-negative dividend the JavaScript remainder is the Euclidean one. */
  lemma RemTwoOfNonNegative(a: real)
    requires a >= 0.0
    ensures RemTwo(a) == a - 2.0 * (a / 2.0).Floor as real
  {
  }

  lemma MulNonNegative(a: real, b: real)
    requires a >= 0.0 && b >= 0.0
    ensures a * b >= 0.0
  {
  }

  /** A fraction of a non-negative quantity lies between nothing and all of it. */
  lemma MulBetween(a: real, t: real)
    ensures a >= 0.0 && 0.0 <= t <= 1.0 ==> 0.0 <= a * t <= a
  {
    if a >= 0.0 && 0.0 <= t <= 1.0 {
      assert a * (1.0 - t) >= 0.0;
    }
  }

  lemma RoundMonotone(x: real, y: real)
    requires x <= y
    ensures Round(x) <= Round(y)
  {
  }

  lemma RoundOfInteger(n: int)
    ensures Round(n as real) == n
  {
  }
}
